=== FILE: README.md ===
# Off-hours Notion digest: a Dafny model

This project models `gas.js`, a Google Apps Script web app. The app receives Notion webhook events. When an event arrives outside working hours, the app parks it in the script cache. A one-minute trigger later drains the cache into an `Events` sheet. Once a day the app posts a Slack digest with one bullet per distinct user among yesterday's rows, then trims the log sheets. Two timed probes watch the Notion API: one warns when it is unhealthy, the other resumes a paused webhook.

The platform services are modelled as plain state and inputs:

- The script cache is a `map<string, CacheEntry>` in class `Caching.ScriptCache`.
- The script properties are a `map<string, string>` in class `OffHours.ScriptProperties`.
- The spreadsheet is one sequence of rows per table in class `Sheets.Spreadsheet`.
- The clock, the lock, the holiday calendar, the Notion and Slack replies, and the exported sheet's URL are parameters.

Each operation that changes state is a method. Its postcondition equates the new state with a function of the old state. The lemmas are proved about those functions.

The model keeps the code's behaviour in these places:

- **Holiday lookup failure.** A failing holiday calendar raises an exception out of `isHoliday`. `doPost` catches it, answers `ok` and does not queue the event. An event that arrives while the calendar is unreachable inside working hours is therefore dropped rather than parked (`OffHours.Holiday`, `QueueDrain.DoPost`).
- **User cache key mismatch.** `resolveUser` reads the cache under `'USER_' + id` but writes under the bare `id`. A successful lookup is therefore never itself a later hit (`Users.ResolveWriteNeverHits`).
- **User names in the queue's cache.** User names are written into the same cache that `dequeue` walks. They are stored as bare text, so `JSON.parse` rejects them and the `forEach` stops at such a key. That key and every key not yet visited stay cached, except under the author id of a payload saved before the stop (`Queue.Step`, `QueueDrain.DrainStoppedKeepsRest`). A drain that completes leaves no payload behind. The only entries left are names cached during that drain under author ids (`QueueDrain.DrainClears`).
- **Lost events.** `dequeue` removes a key even when `saveEvent` could not take the lock, so that event is lost (`QueueDrain.LockFailureLosesEvent`).
- **Same-millisecond enqueues.** Queue keys are `'Q_' + Date.now()`. Two enqueues in the same millisecond share a key, and the later payload replaces the earlier one. Different milliseconds give different keys (`QueueKeys.QueueKeyInjective`).

## Model

| member | source | states |
|---|---|---|
| `Inbound.Truthy` | gas.js:94-97 | defines JavaScript truthiness of an optional string: absent and `''` are falsy, anything else is truthy |
| `Inbound.NameOf` | gas.js:94 | defines `ev.actor?.name`: absent when the actor is |
| `Inbound.EmailOf` | gas.js:95 | defines `ev.actor?.person?.email`: absent when the actor or the person is |
| `Inbound.EntityId` | gas.js:70 | defines `ev.entity?.id`: absent when the entity is |
| `Inbound.FirstAuthorId` | gas.js:96 | defines `ev.authors?.[0]?.id`: absent when there is no author |
| `Inbound.OrEmpty` | gas.js:69-70 | the fallback to `''` is empty exactly when the optional string is absent or empty, and is the string otherwise |
| `QueueKeys.Decimal` | gas.js:24 | the decimal form of the clock has at least one digit, consists only of digits, and is one character long exactly for values below 10 |
| `QueueKeys.DecimalInjective` | gas.js:24 | two clock readings with the same decimal form are equal |
| `QueueKeys.QueueKey` | gas.js:24 | every queue key starts with `Q_` and has something after it |
| `QueueKeys.QueueKeyInjective` | gas.js:24-25 | two enqueues share a key exactly when they happen in the same millisecond |
| `NotionUrl.StripDashes` | gas.js:122 | removing dashes leaves no dash and never lengthens the id |
| `NotionUrl.StripDashesAppend` | gas.js:122 | dash removal works piecewise over concatenation |
| `NotionUrl.StripDashesNoDash` | gas.js:122 | an id without dashes is unchanged |
| `NotionUrl.StripDashesKeepsOthers` | gas.js:122 | every non-dash character is kept as often as it occurs, and no dash is |
| `NotionUrl.MakeNotionUrl` | gas.js:122 | the link is empty iff the id is absent or empty; otherwise it is `https://www.notion.so/` followed by the id with every dash removed, and has no dash after the prefix |
| `NotionUrl.NotionUrlExample` | gas.js:198 | `test-page-id` links to `https://www.notion.so/testpageid` |
| `NotionUrl.NotionUrlThreeWords` | gas.js:122 | three dash-free words joined by dashes link to the words run together |
| `NotionUrl.NotionUrlDashFree` | gas.js:122 | a non-empty dash-free id is appended to the prefix verbatim |
| `OffHours.HolidayKey` | gas.js:130 | the store key is `HOLI_` followed by the date key |
| `OffHours.Holiday` | gas.js:129-140 | a cached date answers from its entry without changing the store; a miss stores exactly one new entry; no entry is ever replaced; a stored entry always agrees with the answer; the call fails only on an uncached date with an unreachable calendar |
| `OffHours.HolidayWriteOnce` | gas.js:129-140 | once a date is answered, every later call gives the same answer whatever the calendar says, and stores nothing |
| `OffHours.HolidayFromCalendar` | gas.js:134-138 | on a miss the date is a holiday iff the calendar lists at least one item |
| `OffHours.IsHoliday` | gas.js:129-140 | the method's answer and new property store are those of `Holiday` on the old store |
| `OffHours.IsOffHours` | gas.js:127 | a holiday is always off-hours; for a day numbered 0 (Sunday) to 6 (Saturday), a time is off-hours exactly when it is a holiday or falls outside Monday–Friday 9:00–20:00 |
| `OffHours.OffHoursOutsideWindow` | gas.js:127 | hour ≥ 20, hour < 9, Sunday or Saturday is always off-hours |
| `OffHours.OffHoursInsideWindow` | gas.js:127 | on a weekday (1–5) between 9:00 and 20:00, off-hours equals the holiday flag |
| `OffHours.OffHoursAt` | gas.js:124-128 | outside the working window the answer is `true` and the store is untouched; inside it the answer and store are exactly those of the holiday lookup; a successful answer is `IsOffHours` with the holiday flag as stored |
| `OffHours.OffHoursOracleOnlyInWindow` | gas.js:127 | outside the working window, or for a cached date, the calendar is not consulted and the store is unchanged |
| `OffHours.OffHoursCheck` | gas.js:124-128 | the method's answer and new store are those of `OffHoursAt` |
| `Sheets.Slice` | gas.js:164 | the result is a prefix of the text, no longer than the limit, and all of the text when it fits |
| `Sheets.Pruned` | gas.js:185 | a table of at most 2000 rows is unchanged; a longer table loses exactly 1000 rows; the first (header) row is always kept |
| `Sheets.PrunedKeepsOrder` | gas.js:185 | surviving row i is former row i + 1000, so order is kept |
| `Sheets.PrunedBound` | gas.js:164-165 | appending one row to a table within 2000 rows and pruning keeps it within 2000 rows |
| `Sheets.PrunedIdempotent` | gas.js:185 | pruning twice equals pruning once for tables up to 3000 rows |
| `Sheets.Spreadsheet.Prune` | gas.js:185 | the named table is replaced by its pruned form; no other table changes |
| `Sheets.Spreadsheet.PruneAll` | gas.js:186 | every table is pruned exactly once |
| `Slack.SlackLogRow` | gas.js:164 | the row carries the given stamp, then `INFO`, `response`, and the reply cut to its first 2000 characters |
| `Slack.LogSlack` | gas.js:160-165 | the reply row is appended to SlackLogs and that table is pruned; no other table changes |
| `Users.LookupName` | gas.js:112-114 | a lookup yields a name iff it answered 200 with a parseable body; the name is the user's name if non-empty, else the person's email if non-empty, else the id itself, and is never empty |
| `Users.UserKey` | gas.js:99 | the read key is `USER_` followed by the author id |
| `Users.CacheHit` | gas.js:100-101 | defines a cache hit: non-empty text under the read key |
| `Users.Resolve` | gas.js:92-121 | the name is never empty; with no actor name or email and an author id, a cache hit under `USER_` + id returns the cached text with the cache unchanged, and a miss with a successful lookup returns the looked-up name and stores it under the bare id; the cache changes in no other case |
| `Users.ResolvePriority` | gas.js:94-97 | actor name wins, then actor email, whatever the cache and endpoint say; with neither and no author id the result is `(unknown)` |
| `Users.ResolveFailureIsUnknown` | gas.js:112-120 | a failed lookup yields `(unknown)` and writes nothing to the cache |
| `Users.ResolveWriteNeverHits` | gas.js:99-115 | after a lookup that wrote the cache, resolving the same event again behaves as on the old cache and asks the endpoint afresh |
| `Users.ResolveUser` | gas.js:92-121 | the method's name and new cache are those of `Resolve` |
| `Queue.EventRow` | gas.js:67-73 | the row carries the given stamp and four cells: the type (or empty), the entity id, the user, and the entity's Notion link; with no entity id, both the id and the link cells are empty |
| `Queue.Save` | gas.js:62-76 | without the lock nothing changes; with it exactly one row is appended, carrying the resolved user, earlier rows are untouched, and the cache is the one user resolution leaves |
| `Queue.Unparseable` | gas.js:31 | defines the values on which parsing a cached value throws: non-empty bare text; a missing or empty value is parsed as `'{}'` and does not throw |
| `Queue.Typed` | gas.js:32 | defines the payloads `if (o.type)` saves: a queued event whose `type` is truthy |
| `Queue.Step` | gas.js:30-34 | a visit throws iff the value is stored bare text; otherwise the key is removed, the row of the payload with its resolved user is appended iff the payload is typed and the lock was taken, and every other entry is kept except a user name written under the payload's author id |
| `Queue.Drain` | gas.js:28-35 | rows are only appended, at most one per key; a drain that stops does so at a listed key holding bare text, which stays cached |
| `QueueDrain.SavedKeys` | gas.js:30-32 | the keys whose visit saves a row are listed keys, in listing order, each holding a typed payload whose lock is taken |
| `QueueDrain.StepKeepsRest` | gas.js:30-34 | visiting one key leaves the entries of every later listed key as they were, when no author id is a listed key |
| `QueueDrain.DrainRows` | gas.js:28-35 | a drain that completes appends exactly one row per saved key, in listing order; each row is that key's payload with the user it resolves to on the starting cache. This holds when no key repeats and no author id starts with `USER_` |
| `QueueDrain.DrainRowsStopped` | gas.js:28-35 | a drain that stops appends exactly one row per key saved before the stop key, in listing order; each row is that key's payload with the user it resolves to on the starting cache. This holds when no key repeats and no author id starts with `USER_` |
| `QueueDrain.StopsBy` | gas.js:30-31 | a listed key holding a cached user name stops the drain, at that key or an earlier one |
| `QueueDrain.StepKeepsNames` | gas.js:99-101 | when no author id starts with `USER_`, visiting a key changes no user's resolved name: the key removed held no cached name, and the name written goes under a key never read |
| `QueueDrain.DrainStoppedKeepsRest` | gas.js:30-34 | a drain that stops leaves every key it did not visit, the stop key included, exactly as it was, except a key that is the first author id of a payload saved before the stop |
| `QueueDrain.DrainStoppedNoClash` | gas.js:30-34 | when no author id is a listed key, a drain that stops leaves the stop key and every later key exactly as they were |
| `QueueDrain.DrainClears` | gas.js:28-35 | after a drain that completes, no payload remains; every remaining key is a user name under a first-author id of a drained payload |
| `QueueDrain.DrainClearsStart` | gas.js:28-35 | when no author id is a listed key, a drain that completes leaves none of the keys present at the start |
| `QueueDrain.LockFailureLosesEvent` | gas.js:28-35 | a typed payload whose lock fails is removed without a row |
| `QueueDrain.UserKeyNotQueueKey` | gas.js:99 | a user-cache read key is never a queue key |
| `QueueDrain.EnqueueThenDrain` | gas.js:22-35 | one enqueue into an empty cache, then one drain: exactly one row when the type is set and the lock taken, none otherwise, and no payload left |
| `QueueDrain.Enqueue` | gas.js:22-27 | the payload is stored under `Q_` plus the millisecond clock, replacing whatever was there |
| `QueueDrain.SaveEvent` | gas.js:62-76 | the method's cache and Events table are those of `Save`; other tables are unchanged |
| `QueueDrain.Visit` | gas.js:30-34 | one `forEach` iteration: it stops with nothing changed exactly when `JSON.parse` rejects the value, and otherwise leaves the cache and Events table of `Step` |
| `QueueDrain.Dequeue` | gas.js:28-35 | the method's cache and Events table are those of `Drain`; it reports the key it stopped at, if any; a full drain leaves only user names under author ids |
| `QueueDrain.DoPost` | gas.js:8-20 | the reply is always `ok`; a parsed payload is queued exactly when the off-hours check answers true; parse and calendar failures are swallowed |
| `Digest.GetRows` | gas.js:142-145 | every kept row is stamped in `[from, to)`, and no more rows are kept than exist |
| `Digest.GetRowsKeepsWindow` | gas.js:144 | each in-window row is kept as often as it occurs; every other row is dropped |
| `Digest.GetRowsAppend` | gas.js:144 | filtering works piecewise, so kept rows stay in table order |
| `Digest.UserColumn` | gas.js:78 | `rows.map(r => r[3])`: one user cell per row, in row order |
| `Digest.UserCell` | gas.js:78 | defines a row's user cell, the column after type and id |
| `Digest.Distinct` | gas.js:78 | the distinct users are exactly the users present, each once |
| `Digest.DistinctFirstOccurrenceOrder` | gas.js:78 | the distinct users come in the order of their first occurrence |
| `Digest.DistinctCount` | gas.js:78 | there are as many distinct users as elements in the set of users |
| `Digest.Bullets` | gas.js:79 | there is one `• u` line per user, in the same order |
| `Digest.JoinLines` | gas.js:79 | defines `.join('\n')`: the lines with a newline between each pair |
| `Digest.SplitJoinLines` | gas.js:79 | joining newline-free lines with `\n` and splitting again gives the lines back |
| `Digest.BuildBlocks` | gas.js:77-89 | the digest's button links to the given sheet URL |
| `Digest.DigestLines` | gas.js:77-89 | when there is at least one row and no user cell holds a newline, the digest body splits into exactly one `• u` line per distinct user, in first-occurrence order |
| `Digest.DailyDigest` | gas.js:41-48 | with no row in the window nothing is posted and no table changes; otherwise the digest of those rows is posted, its reply logged, and every table pruned |
| `Monitor.NotionHealthCheck` | gas.js:203-223 | exactly one warning iff the code is not 200, carrying the code and the body cut to 300 characters; no patch |
| `Monitor.ResumeWebhookIfPaused` | gas.js:228-255 | exactly the requests issued, in order: one status fetch; then, only if it answered 200 with `paused` set, one PATCH with `paused: false`; then, only if that answered 200, one confirmation, whose reply is logged |

## Left out

- `tera.py` is a one-off scraper over a foreign HTML library and is not part of this model.
- Cache expiry (600 s for queued payloads, `CACHE_HOURS` for user names) is not modelled; entries stay until removed.
- Dates and clocks are not modelled: `new Date`, `getHours`, `getDay`, `Utilities.formatDate`, `dayStart` and `now`. Hours, weekdays, date keys, window bounds, row stamps and `Date.now()` are inputs. Time zones are not modelled. The holiday calendar is asked about the 24 hours from the event's own time rather than about its calendar date, and the answer is stored under the date's key. Reading the calendar's `timeMin`/`timeMax` as an overlap test, a working hour on the day before a holiday can make that whole day count as a holiday. The model takes the calendar's answer as an input for the date key, so it does not capture this.
- JSON is not modelled. A queued payload is assumed to parse back to the event that was stored. A cached user name is taken to be rejected by `JSON.parse`, even one that happens to be JSON text such as a number. Payload fields are strings or absent; other JSON types are not modelled.
- Overlapping trigger runs are not modelled. `installTriggers`, the trigger created by `enqueue`, and the scheduling itself are left out. The lock is the boolean result of `tryLock`.
- Answers from outside are fixed inputs. Within one drain, lock results, stamps and user lookups are functions of the key or the author id. A user endpoint that answers differently on two calls for the same id is not modelled.
- Exceptions from `UrlFetchApp.fetch` in the two probes and in `postSlack` are not modelled, including the non-2xx answers that raise in `postSlack`, which fetches without `muteHttpExceptions`. Those in `resolveUser` are caught and are modelled as a failed lookup.
- `exportSheet` is not modelled; its URL is an input. The outgoing Slack request is recorded as a `Request`. Message header text and emoji are not modelled.
- `debugLog` is modelled as if the external `DEBUG` setting were off. `DebugLogs` is therefore only ever pruned.
- `NOTION_TOKEN` initialisation, `doGet`, `reply` and the test harness are not modelled.
- `getSheet` creates a missing sheet on first use. The model takes every sheet to exist.
- `Sheets.Slice`: text lengths and cuts count characters, not UTF-16 code units. JavaScript's `slice` counts code units and can split a surrogate pair, so a reply or response body with characters outside the Basic Multilingual Plane (emoji) is cut at a different place than at gas.js:164 and gas.js:215.
- `Queue.Drain`: the code calls `getKeys()` on the script cache (gas.js:30), which the platform's cache interface does not offer. As written, `dequeue` raises a `TypeError` before visiting any key. The model reads the call as a listing of every cache key, in an order given as a parameter.
- `Users.Resolve`: the code reads the cache with `getProperty` (gas.js:100), which the platform's cache interface does not offer. As written, the call raises a `TypeError` outside the `try`, so every event that reaches that line fails. The model reads it as a cache read.
- `Monitor.ResumeWebhookIfPaused`: the code parses `statusRes` itself (gas.js:238), which is the response object turned into a string rather than its body text. As written, the parse fails. The model reads it as parsing the body's `paused` flag.

- A queued payload stored under a `USER_` key would be read as a cache miss. This cannot happen: queue keys start with `Q_`.

=== FILE: caching.dfy ===
/** The script cache: one key/value store shared by the event queue and the user-name cache.
    Queue payloads are stored as JSON of the event; user names are stored as bare text. */
module Caching {
  import opened Inbound

  datatype CacheEntry = Queued(ev: Event) | Text(s: string)

  class ScriptCache {
    var entries: map<string, CacheEntry>
  }
}

=== FILE: digest.dfy ===
/** `dailyDigest`, `getRows` and `buildBlocks`: yesterday's off-hours events summarised as one
    bullet per distinct user, with a link to an exported copy of the rows. */
module Digest {
  import opened Inbound
  import opened Sheets
  import opened Slack

  /** `getRows(from, to)` on the Events rows: those stamped in `[from, to)`, in table order. */
  function GetRows(rows: seq<Row>, from: int, to: int): (r: seq<Row>)
    ensures |r| <= |rows|
    ensures forall i :: 0 <= i < |r| ==> from <= r[i].stamp < to
    decreases |rows|
  {
    if rows == [] then []
    else
      (if from <= rows[0].stamp < to then [rows[0]] else []) + GetRows(rows[1..], from, to)
  }

  /** Every row in the window is kept, as often as it occurs, and no other row. */
  lemma {:induction false} GetRowsKeepsWindow(rows: seq<Row>, from: int, to: int, x: Row)
    ensures multiset(GetRows(rows, from, to))[x] == if from <= x.stamp < to then multiset(rows)[x] else 0
    decreases |rows|
  {
    if rows != [] {
      GetRowsKeepsWindow(rows[1..], from, to, x);
      assert rows == [rows[0]] + rows[1..];
    }
  }

  /** Filtering works piecewise, so the kept rows stay in their original order. */
  lemma {:induction false} GetRowsAppend(a: seq<Row>, b: seq<Row>, from: int, to: int)
    ensures GetRows(a + b, from, to) == GetRows(a, from, to) + GetRows(b, from, to)
    decreases |a|
  {
    if a != [] {
      var head := if from <= a[0].stamp < to then [a[0]] else [];
      assert (a + b)[1..] == a[1..] + b;
      assert (a + b)[0] == a[0];
      assert GetRows(a + b, from, to) == head + GetRows(a[1..] + b, from, to);
      GetRowsAppend(a[1..], b, from, to);
      assert GetRows(a, from, to) == head + GetRows(a[1..], from, to);
    } else {
      assert a + b == b;
    }
  }

  /** Column 4 (`r[3]`): the user. `getValues()` pads a short row with ''. */
  function UserCell(r: Row): string {
    if |r.cells| > 2 then r.cells[2] else ""
  }

  function UserColumn(rows: seq<Row>): (us: seq<string>)
    ensures |us| == |rows|
    ensures forall i :: 0 <= i < |rows| ==> us[i] == UserCell(rows[i])
  {
    seq(|rows|, i requires 0 <= i < |rows| => UserCell(rows[i]))
  }

  /** `[...new Set(s)]`: each value once, in the order of its first occurrence. */
  function Distinct(s: seq<string>): (r: seq<string>)
    ensures forall x :: x in r <==> x in s
    ensures forall i, j :: 0 <= i < j < |r| ==> r[i] != r[j]
    decreases |s|
  {
    if s == [] then []
    else
      var p := Distinct(s[..|s| - 1]);
      assert s == s[..|s| - 1] + [s[|s| - 1]];
      if s[|s| - 1] in p then p else p + [s[|s| - 1]]
  }

  /** The position of the first occurrence of `x` in `s`. */
  function FirstIndex(s: seq<string>, x: string): (i: nat)
    requires x in s
    ensures i < |s| && s[i] == x
    ensures forall j :: 0 <= j < i ==> s[j] != x
  {
    if s[0] == x then 0 else 1 + FirstIndex(s[1..], x)
  }

  lemma FirstIndexPrefix(s: seq<string>, n: nat, x: string)
    requires n <= |s| && x in s[..n]
    ensures FirstIndex(s, x) == FirstIndex(s[..n], x)
  {
    var i := FirstIndex(s[..n], x);
    assert s[i] == x;
    var k := FirstIndex(s, x);
    assert !(k < i) by { assert s[..n][k] == s[k]; }
  }

  /** The distinct users come out in the order in which each first appears. */
  lemma {:induction false} DistinctFirstOccurrenceOrder(s: seq<string>, i: nat, j: nat)
    requires i < j < |Distinct(s)|
    ensures FirstIndex(s, Distinct(s)[i]) < FirstIndex(s, Distinct(s)[j])
    decreases |s|
  {
    var n := |s| - 1;
    var s' := s[..n];
    var p := Distinct(s');
    var r := Distinct(s);
    assert r[i] in s' by {
      if r == p { assert r[i] in p; } else { assert i < |p|; assert r[i] == p[i]; }
    }
    FirstIndexPrefix(s, n, r[i]);
    if j < |p| {
      assert r[i] == p[i] && r[j] == p[j];
      FirstIndexPrefix(s, n, r[j]);
      DistinctFirstOccurrenceOrder(s', i, j);
    } else {
      assert r[j] == s[n] && s[n] !in s';
      assert FirstIndex(s, r[j]) == n;
    }
  }

  /** A sequence without repeats has as many elements as the set of its elements. */
  lemma {:induction false} NoRepeatsCount(r: seq<string>)
    requires forall i, j :: 0 <= i < j < |r| ==> r[i] != r[j]
    ensures |set x | x in r| == |r|
    decreases |r|
  {
    if r != [] {
      var t := r[..|r| - 1];
      NoRepeatsCount(t);
      assert (set x | x in r) == (set x | x in t) + {r[|r| - 1]};
      assert r[|r| - 1] !in t;
    }
  }

  /** There is exactly one entry per distinct user. */
  lemma DistinctCount(s: seq<string>)
    ensures |Distinct(s)| == |set x | x in s|
  {
    var r := Distinct(s);
    NoRepeatsCount(r);
    assert (set x | x in r) == (set x | x in s);
  }

  /** `• u` */
  function Bullet(u: string): string {
    "• " + u
  }

  function Bullets(us: seq<string>): (bs: seq<string>)
    ensures |bs| == |us|
    ensures forall i :: 0 <= i < |us| ==> bs[i] == Bullet(us[i])
  {
    seq(|us|, i requires 0 <= i < |us| => Bullet(us[i]))
  }

  /** `lines.join('\n')` */
  function JoinLines(lines: seq<string>): string
    decreases |lines|
  {
    if lines == [] then ""
    else if |lines| == 1 then lines[0]
    else lines[0] + "\n" + JoinLines(lines[1..])
  }

  /** `s.split('\n')`: the pieces between newlines, one more than there are newlines. */
  function SplitLines(s: string): (r: seq<string>)
    ensures |r| >= 1
    decreases |s|
  {
    if s == [] then [""]
    else if s[0] == '\n' then [""] + SplitLines(s[1..])
    else
      var t := SplitLines(s[1..]);
      [[s[0]] + t[0]] + t[1..]
  }

  predicate NoNewline(s: string) {
    forall i :: 0 <= i < |s| ==> s[i] != '\n'
  }

  /** Splitting a line without newlines, followed by more text, peels that line off. */
  lemma {:induction false} SplitLinesHead(a: string, rest: string)
    requires NoNewline(a)
    ensures SplitLines(a + rest)[0] == a + SplitLines(rest)[0]
    ensures SplitLines(a + rest)[1..] == SplitLines(rest)[1..]
    decreases |a|
  {
    if a != [] {
      assert (a + rest)[1..] == a[1..] + rest;
      assert (a + rest)[0] == a[0];
      SplitLinesHead(a[1..], rest);
      assert a == [a[0]] + a[1..];
    } else {
      assert a + rest == rest;
    }
  }

  /** Joining lines that contain no newline and splitting again gives the lines back. */
  lemma {:induction false} SplitJoinLines(lines: seq<string>)
    requires lines != []
    requires forall i :: 0 <= i < |lines| ==> NoNewline(lines[i])
    ensures SplitLines(JoinLines(lines)) == lines
    decreases |lines|
  {
    var a := lines[0];
    if |lines| == 1 {
      SplitLinesHead(a, "");
      assert a + "" == a;
    } else {
      var rest := JoinLines(lines[1..]);
      SplitJoinLines(lines[1..]);
      assert a + "\n" + rest == a + ("\n" + rest);
      SplitLinesHead(a, "\n" + rest);
      assert ("\n" + rest)[1..] == rest;
      assert SplitLines("\n" + rest) == [""] + SplitLines(rest);
      assert a + "" == a;
    }
  }

  /** The digest: the bullet list and the button's link to the exported sheet. */
  function BuildBlocks(rows: seq<Row>, url: string): (m: Message)
    ensures m.DigestMessage? && m.sheetUrl == url
  {
    DigestMessage(JoinLines(Bullets(Distinct(UserColumn(rows)))), url)
  }

  lemma BulletNoNewline(u: string)
    requires NoNewline(u)
    ensures NoNewline(Bullet(u))
  {
    assert forall i :: 2 <= i < |Bullet(u)| ==> Bullet(u)[i] == u[i - 2];
  }

  lemma DistinctUsersNoNewline(rows: seq<Row>)
    requires forall i :: 0 <= i < |rows| ==> NoNewline(UserCell(rows[i]))
    ensures forall i :: 0 <= i < |Distinct(UserColumn(rows))| ==> NoNewline(Bullets(Distinct(UserColumn(rows)))[i])
  {
    var us := UserColumn(rows);
    var d := Distinct(us);
    forall i | 0 <= i < |d|
      ensures NoNewline(Bullets(d)[i])
    {
      assert d[i] in us;
      var k :| 0 <= k < |us| && us[k] == d[i];
      BulletNoNewline(UserCell(rows[k]));
    }
  }

  lemma UserSet(rows: seq<Row>)
    ensures (set x | x in UserColumn(rows)) == (set i | 0 <= i < |rows| :: UserCell(rows[i]))
  {
    var us := UserColumn(rows);
    forall x | x in us
      ensures x in (set i | 0 <= i < |rows| :: UserCell(rows[i]))
    {
      var k :| 0 <= k < |us| && us[k] == x;
    }
  }

  /** With users that hold no newline, the digest body has exactly one line per distinct user,
      each `• u`, in order of first appearance. */
  lemma DigestLines(rows: seq<Row>, url: string)
    requires rows != []
    requires forall i :: 0 <= i < |rows| ==> NoNewline(UserCell(rows[i]))
    ensures var lines := SplitLines(BuildBlocks(rows, url).body);
      && lines == Bullets(Distinct(UserColumn(rows)))
      && |lines| == |set i | 0 <= i < |rows| :: UserCell(rows[i])|
  {
    var us := UserColumn(rows);
    assert us[0] in Distinct(us);
    DistinctUsersNoNewline(rows);
    SplitJoinLines(Bullets(Distinct(us)));
    DistinctCount(us);
    UserSet(rows);
  }

  /** `dailyDigest()` for the window `[from, to)` (yesterday). `sheetUrl` is what `exportSheet`
      returns and `reply` what the chat API answers. With no row in the window nothing happens;
      otherwise the digest is posted, its reply logged, and every table pruned. */
  method DailyDigest(book: Spreadsheet, from: int, to: int, sheetUrl: string, reply: string, stamp: int)
    returns (posted: Option<Message>)
    requires book.Valid()
    modifies book
    ensures book.Valid()
    ensures var rows := GetRows(old(book.tables)[Events], from, to);
      if rows == [] then posted.None? && book.tables == old(book.tables)
      else
        && posted == Some(BuildBlocks(rows, sheetUrl))
        && book.tables[Events] == Pruned(old(book.tables)[Events])
        && book.tables[DebugLogs] == Pruned(old(book.tables)[DebugLogs])
        && book.tables[SlackLogs] == Pruned(Pruned(old(book.tables)[SlackLogs] + [SlackLogRow(stamp, reply)]))
  {
    var rows := GetRows(book.tables[Events], from, to);
    if |rows| == 0 {
      return None;
    }
    var blocks := BuildBlocks(rows, sheetUrl);
    LogSlack(book, reply, stamp);
    book.PruneAll();
    posted := Some(blocks);
  }
}

=== FILE: inbound.dfy ===
/** The inbound webhook payload, as the handler reads it after JSON parsing.
    Every field the handler touches through optional chaining (`?.`) is an Option;
    `authors` absent and `authors` empty both read as no first author. */
module Inbound {

  datatype Option<T> = None | Some(value: T)

  /** JavaScript truthiness of an optional string: absent and "" are falsy. */
  predicate Truthy(s: Option<string>) {
    s.Some? && s.value != ""
  }

  /** `s || ''` on an optional string. */
  function OrEmpty(s: Option<string>): (r: string)
    ensures r != "" <==> Truthy(s)
    ensures Truthy(s) ==> r == s.value
  {
    if s.Some? then s.value else ""
  }

  datatype Person = Person(email: Option<string>)
  datatype Actor = Actor(name: Option<string>, person: Option<Person>)
  datatype Entity = Entity(id: Option<string>)
  datatype Author = Author(id: Option<string>)

  /** `kind` is the payload's `type` field (a reserved word in Dafny). */
  datatype Event = Event(
    kind: Option<string>,
    timestamp: Option<string>,
    entity: Option<Entity>,
    actor: Option<Actor>,
    authors: seq<Author>)

  /** `a?.name` */
  function NameOf(a: Option<Actor>): Option<string> {
    if a.Some? then a.value.name else None
  }

  /** `a?.person?.email` */
  function EmailOf(a: Option<Actor>): Option<string> {
    if a.Some? && a.value.person.Some? then a.value.person.value.email else None
  }

  /** `ev.entity?.id` */
  function EntityId(ev: Event): Option<string> {
    if ev.entity.Some? then ev.entity.value.id else None
  }

  /** `ev.authors?.[0]?.id` */
  function FirstAuthorId(ev: Event): Option<string> {
    if |ev.authors| > 0 then ev.authors[0].id else None
  }
}

=== FILE: keys.dfy ===
/** Queue keys: `'Q_' + Date.now()`, the millisecond clock written in decimal. */
module QueueKeys {

  /** The decimal digit character for `d`. */
  function DigitChar(d: nat): (c: char)
    requires d < 10
    ensures '0' <= c <= '9'
    ensures c as int - '0' as int == d
  {
    ('0' as int + d) as char
  }

  /** `String(n)` for a non-negative integer: most significant digit first, no leading zeros. */
  function Decimal(n: nat): (s: string)
    ensures |s| >= 1
    ensures |s| == 1 <==> n < 10
    ensures forall i :: 0 <= i < |s| ==> '0' <= s[i] <= '9'
    decreases n
  {
    if n < 10 then [DigitChar(n)] else Decimal(n / 10) + [DigitChar(n % 10)]
  }

  /** Two different clock readings are written differently. */
  lemma {:induction false} DecimalInjective(a: nat, b: nat)
    requires Decimal(a) == Decimal(b)
    ensures a == b
    decreases a
  {
    if a >= 10 && b >= 10 {
      var da, db := Decimal(a), Decimal(b);
      assert da[|da| - 1] == db[|db| - 1];
      assert DigitChar(a % 10) == DigitChar(b % 10);
      assert Decimal(a / 10) == da[..|da| - 1] == db[..|db| - 1] == Decimal(b / 10);
      DecimalInjective(a / 10, b / 10);
    } else if a < 10 && b < 10 {
      assert Decimal(a)[0] == Decimal(b)[0];
    }
  }

  const QueuePrefix := "Q_"

  /** The cache key `enqueue` uses for a payload received at `ms`. */
  function QueueKey(ms: nat): (k: string)
    ensures |k| > |QueuePrefix| && k[..|QueuePrefix|] == QueuePrefix
  {
    QueuePrefix + Decimal(ms)
  }

  /** Enqueues in different milliseconds get different keys; enqueues in the same
      millisecond share one key, so the later payload overwrites the earlier. */
  lemma QueueKeyInjective(a: nat, b: nat)
    ensures QueueKey(a) == QueueKey(b) <==> a == b
  {
    if QueueKey(a) == QueueKey(b) {
      assert Decimal(a) == QueueKey(a)[|QueuePrefix|..] == QueueKey(b)[|QueuePrefix|..] == Decimal(b);
      DecimalInjective(a, b);
    }
  }
}

=== FILE: monitor.dfy ===
/** `notionHealthCheck` and `resumeWebhookIfPaused`: two timed probes of the upstream API.
    The answers of the remote calls are inputs; each method returns the requests it issued,
    in order, and the Slack log reflects every message posted. */
module Monitor {
  import opened Sheets
  import opened Slack

  datatype Request = GetMe | GetWebhook | PatchWebhook(paused: bool) | Post(msg: Message)

  /** What `GET /webhooks/{id}` answers: its status code and the `paused` flag of its body
      (an absent or falsy flag reads as false). */
  datatype WebhookStatus = WebhookStatus(code: int, paused: bool)

  const ExcerptLimit := 300

  /** `notionHealthCheck()` given the code and body of `GET /users/me`: exactly one warning,
      carrying the code and the first 300 characters of the body, iff the code is not 200. */
  method NotionHealthCheck(book: Spreadsheet, code: int, body: string, reply: string, stamp: int)
    returns (sent: seq<Request>)
    requires book.Valid()
    modifies book
    ensures book.Valid()
    ensures code != 200 ==>
      && sent == [GetMe, Post(HealthWarning(code, Slice(body, ExcerptLimit)))]
      && book.tables == old(book.tables)[SlackLogs := Pruned(old(book.tables)[SlackLogs] + [SlackLogRow(stamp, reply)])]
    ensures code == 200 ==> sent == [GetMe] && book.tables == old(book.tables)
  {
    sent := [GetMe];
    if code != 200 {
      var excerpt := Slice(body, ExcerptLimit);
      sent := sent + [Post(HealthWarning(code, excerpt))];
      LogSlack(book, reply, stamp);
    }
  }

  /** `resumeWebhookIfPaused()` given the status answer and the code the PATCH would answer:
      nothing after a failed status fetch or an unpaused webhook; otherwise exactly one PATCH
      setting `paused: false`, and exactly one confirmation iff it answered 200. */
  method ResumeWebhookIfPaused(book: Spreadsheet, status: WebhookStatus, patchCode: int, reply: string, stamp: int)
    returns (sent: seq<Request>)
    requires book.Valid()
    modifies book
    ensures book.Valid()
    ensures sent == [GetWebhook] + (if status.code == 200 && status.paused
      then [PatchWebhook(false)] + (if patchCode == 200 then [Post(WebhookResumed)] else [])
      else [])
    ensures book.tables == if status.code == 200 && status.paused && patchCode == 200
      then old(book.tables)[SlackLogs := Pruned(old(book.tables)[SlackLogs] + [SlackLogRow(stamp, reply)])]
      else old(book.tables)
  {
    sent := [GetWebhook];
    if status.code != 200 {
      return;
    }
    if !status.paused {
      return;
    }
    sent := sent + [PatchWebhook(false)];
    if patchCode == 200 {
      sent := sent + [Post(WebhookResumed)];
      LogSlack(book, reply, stamp);
    }
  }
}

=== FILE: offhours.dfy ===
/** `isOffHours` and `isHoliday`: the gate that decides whether an incoming event is queued.
    The local hour, the weekday (0 = Sunday … 6 = Saturday) and the `yyyy-MM-dd` date key
    are inputs; the holiday calendar is an oracle answering with its item count, or failing. */
module OffHours {
  import opened Inbound

  /** The script property store: a string-to-string map the handler reads and writes. */
  class ScriptProperties {
    var props: map<string, string>
  }

  /** What `Calendar.Events.list` answers for the 24 hours from the event's own time (not for
      the calendar date): its item count, or an exception. The answer is stored under the
      date's key all the same. */
  datatype Calendar = Items(count: nat) | Unreachable

  /** The result of a classification: `None` when the call raised, and the property store after it. */
  datatype Lookup = Lookup(answer: Option<bool>, props: map<string, string>)

  function HolidayKey(dateKey: string): (key: string)
    ensures |key| == 5 + |dateKey| && key[..5] == "HOLI_" && key[5..] == dateKey
  {
    "HOLI_" + dateKey
  }

  /** `isHoliday`, as a function of the property store before the call: a cached entry answers
      `hit === '1'`; a miss asks the calendar and stores '1' or '0'. An entry, once stored, is
      never replaced, and it always agrees with the answer given. */
  function Holiday(props: map<string, string>, dateKey: string, cal: Calendar): (r: Lookup)
    ensures HolidayKey(dateKey) in props ==> r.answer.Some? && r.props == props
    ensures r.props.Keys == props.Keys + (if r.answer.Some? then {HolidayKey(dateKey)} else {})
    ensures forall k :: k in props ==> r.props[k] == props[k]
    ensures r.answer.Some? ==> r.answer.value == (r.props[HolidayKey(dateKey)] == "1")
    ensures r.answer == None <==> HolidayKey(dateKey) !in props && cal.Unreachable?
  {
    var key := HolidayKey(dateKey);
    if key in props then Lookup(Some(props[key] == "1"), props)
    else match cal
      case Unreachable => Lookup(None, props)
      case Items(n) => Lookup(Some(n > 0), props[key := if n > 0 then "1" else "0"])
  }

  /** First lookup wins: once a date has been answered, every later call for that date gives
      the same answer whatever the calendar says, and stores nothing. */
  lemma HolidayWriteOnce(props: map<string, string>, dateKey: string, cal1: Calendar, cal2: Calendar)
    requires Holiday(props, dateKey, cal1).answer.Some?
    ensures Holiday(Holiday(props, dateKey, cal1).props, dateKey, cal2) == Holiday(props, dateKey, cal1)
  {
  }

  /** A miss answers from the calendar: a holiday iff it lists at least one item. */
  lemma HolidayFromCalendar(props: map<string, string>, dateKey: string, n: nat)
    requires HolidayKey(dateKey) !in props
    ensures Holiday(props, dateKey, Items(n)).answer == Some(n > 0)
  {
  }

  /** `isHoliday(d)`, updating the property store in place. */
  method IsHoliday(store: ScriptProperties, dateKey: string, cal: Calendar) returns (r: Option<bool>)
    modifies store
    ensures Lookup(r, store.props) == Holiday(old(store.props), dateKey, cal)
  {
    var key := HolidayKey(dateKey);
    if key in store.props {
      return Some(store.props[key] == "1");
    }
    match cal
    case Unreachable =>
      r := None;
    case Items(n) =>
      var hol := n > 0;
      store.props := store.props[key := if hol then "1" else "0"];
      r := Some(hol);
  }

  /** Evenings, early mornings, weekends, or a holiday: for a day of the week numbered 0
      (Sunday) to 6 (Saturday), anything but a working day's 9:00 to 20:00. */
  predicate IsOffHours(hour: int, weekday: int, holiday: bool): (off: bool)
    ensures holiday ==> off
    ensures 0 <= weekday <= 6 ==> (off <==> holiday || !(9 <= hour < 20 && 1 <= weekday <= 5))
  {
    (hour >= 20 || hour < 9) || weekday == 0 || weekday == 6 || holiday
  }

  /** Outside the weekday working window the holiday flag does not matter. */
  lemma OffHoursOutsideWindow(hour: int, weekday: int, holiday: bool)
    requires hour >= 20 || hour < 9 || weekday == 0 || weekday == 6
    ensures IsOffHours(hour, weekday, holiday)
  {
  }

  /** Inside the weekday working window the answer is the holiday flag. */
  lemma OffHoursInsideWindow(hour: int, weekday: int, holiday: bool)
    requires 9 <= hour < 20 && 1 <= weekday <= 5
    ensures IsOffHours(hour, weekday, holiday) == holiday
  {
  }

  /** `isOffHours`, including the `||` short circuit: the holiday lookup, with its store write
      and its possible exception, only happens inside the working window. */
  function OffHoursAt(props: map<string, string>, hour: int, weekday: int, dateKey: string, cal: Calendar): (r: Lookup)
    ensures r.answer.Some? ==>
      r.answer.value == IsOffHours(hour, weekday, HolidayKey(dateKey) in r.props && r.props[HolidayKey(dateKey)] == "1")
    ensures forall k :: k in props ==> k in r.props && r.props[k] == props[k]
    ensures r.props.Keys <= props.Keys + {HolidayKey(dateKey)}
    ensures (hour >= 20 || hour < 9 || weekday == 0 || weekday == 6) ==> r == Lookup(Some(true), props)
    ensures !(hour >= 20 || hour < 9 || weekday == 0 || weekday == 6) ==> r == Holiday(props, dateKey, cal)
  {
    if (hour >= 20 || hour < 9) || weekday == 0 || weekday == 6 then Lookup(Some(true), props)
    else Holiday(props, dateKey, cal)
  }

  /** The calendar is consulted only on a weekday between 9:00 and 20:00 whose date is not yet cached. */
  lemma OffHoursOracleOnlyInWindow(props: map<string, string>, hour: int, weekday: int, dateKey: string, cal1: Calendar, cal2: Calendar)
    requires hour >= 20 || hour < 9 || weekday == 0 || weekday == 6 || HolidayKey(dateKey) in props
    ensures OffHoursAt(props, hour, weekday, dateKey, cal1) == OffHoursAt(props, hour, weekday, dateKey, cal2)
    ensures OffHoursAt(props, hour, weekday, dateKey, cal1).props == props
  {
  }

  /** `isOffHours(ts)` on the property store. */
  method OffHoursCheck(store: ScriptProperties, hour: int, weekday: int, dateKey: string, cal: Calendar) returns (r: Option<bool>)
    modifies store
    ensures Lookup(r, store.props) == OffHoursAt(old(store.props), hour, weekday, dateKey, cal)
  {
    if (hour >= 20 || hour < 9) || weekday == 0 || weekday == 6 {
      return Some(true);
    }
    r := IsHoliday(store, dateKey, cal);
  }
}

=== FILE: queue.dfy ===
/** `SimpleQueue`, `saveEvent` and `doPost`: events received off-hours are put in the script
    cache and later drained, one key at a time, into the Events table. */
module Queue {
  import opened Inbound
  import opened NotionUrl
  import opened Caching
  import opened Sheets
  import opened Users

  /** What the outside world answers while one key is drained: whether `tryLock(3000)`
      succeeded, the `now()` stamp of the row, and the users endpoint. */
  datatype Env = Env(locked: string -> bool, stamp: string -> int, lookup: string -> Fetch)

  /** The part of the script's state a drain touches: the cache and the Events table. */
  datatype State = State(cache: map<string, CacheEntry>, events: seq<Row>)

  /** The row `saveEvent` appends: stamp, `type || ''`, `entity?.id || ''`, the resolved
      user and the page link. */
  function EventRow(stamp: int, ev: Event, user: string): (r: Row)
    ensures r.stamp == stamp
    ensures |r.cells| == 4 && r.cells[2] == user
    ensures r.cells[0] != "" <==> Truthy(ev.kind)
    ensures Truthy(ev.kind) ==> r.cells[0] == ev.kind.value
    ensures r.cells[1] == "" <==> r.cells[3] == ""
    ensures Truthy(EntityId(ev)) ==> r.cells[1] == EntityId(ev).value && r.cells[3] == MakeNotionUrl(EntityId(ev))
    ensures !Truthy(EntityId(ev)) ==> r.cells[1] == "" && r.cells[3] == ""
  {
    Row(stamp, [OrEmpty(ev.kind), OrEmpty(EntityId(ev)), user, MakeNotionUrl(EntityId(ev))])
  }

  /** `saveEvent(ev)`: nothing at all without the lock; with it, the user is resolved (which
      may write the cache) and exactly one row is appended. */
  function Save(s: State, ev: Event, locked: bool, stamp: int, lookup: string -> Fetch): (t: State)
    ensures |t.events| == |s.events| + (if locked then 1 else 0)
    ensures t.events[..|s.events|] == s.events
    ensures !locked ==> t == s
    ensures locked ==> t.events[|s.events|] == EventRow(stamp, ev, Resolve(s.cache, ev, lookup).name)
    ensures locked ==> t.cache == Resolve(s.cache, ev, lookup).cache
  {
    if !locked then s
    else
      var r := Resolve(s.cache, ev, lookup);
      State(r.cache, s.events + [EventRow(stamp, ev, r.name)])
  }

  /** A stored user name that `JSON.parse` rejects: any non-empty bare text. */
  predicate Unparseable(cache: map<string, CacheEntry>, k: string) {
    k in cache && cache[k].Text? && cache[k].s != ""
  }

  /** A payload with a non-empty `type`, the only kind `dequeue` saves. */
  predicate Typed(cache: map<string, CacheEntry>, k: string) {
    k in cache && cache[k].Queued? && Truthy(cache[k].ev.kind)
  }

  /** Whether visiting `k` may cache a user name under `j`: `j` is the first author of the
      typed payload at `k`. */
  predicate WritesAuthor(cache: map<string, CacheEntry>, k: string, j: string) {
    Typed(cache, k) && Truthy(FirstAuthorId(cache[k].ev)) && FirstAuthorId(cache[k].ev).value == j
  }

  /** One iteration of the `forEach` in `dequeue` on key `k`: `None` when `JSON.parse` throws
      (which ends the whole drain with `k` still cached), otherwise the state after saving a
      typed payload and removing `k`. A missing or empty value parses as `{}` and is removed. */
  function Step(s: State, k: string, env: Env): (r: Option<State>)
    ensures r.None? <==> Unparseable(s.cache, k)
    ensures r.Some? ==> k !in r.value.cache
    ensures r.Some? ==> |r.value.events| == |s.events| + (if Typed(s.cache, k) && env.locked(k) then 1 else 0)
    ensures r.Some? ==> r.value.events[..|s.events|] == s.events
    ensures r.Some? && Typed(s.cache, k) && env.locked(k) ==>
      r.value.events == s.events + [EventRow(env.stamp(k), s.cache[k].ev, Resolve(s.cache, s.cache[k].ev, env.lookup).name)]
    ensures r.Some? ==> forall j :: j in s.cache && j != k && !WritesAuthor(s.cache, k, j) ==>
      j in r.value.cache && r.value.cache[j] == s.cache[j]
    ensures r.Some? ==> forall j :: j in r.value.cache ==> j in s.cache || WritesAuthor(s.cache, k, j)
    ensures r.Some? ==> forall j :: j in r.value.cache && r.value.cache[j].Queued? ==>
      j in s.cache && s.cache[j] == r.value.cache[j]
  {
    if Unparseable(s.cache, k) then None
    else
      var t := if Typed(s.cache, k) then Save(s, s.cache[k].ev, env.locked(k), env.stamp(k), env.lookup) else s;
      Some(State(t.cache - {k}, t.events))
  }

  /** How a drain ends: every key visited, or an exception at key `at`. */
  datatype Outcome = Done(state: State) | Stopped(state: State, at: string) {
    function Final(): State {
      match this
      case Done(s) => s
      case Stopped(s, _) => s
    }
  }

  /** `dequeue` over the keys in the order `getKeys()` lists them. Rows are only ever appended,
      at most one per key visited; a drain that stops does so at a stored user name, which
      stays in the cache. */
  function Drain(s: State, order: seq<string>, env: Env): (r: Outcome)
    ensures |s.events| <= |r.Final().events| <= |s.events| + |order|
    ensures r.Final().events[..|s.events|] == s.events
    ensures r.Stopped? ==> r.at in order && Unparseable(r.Final().cache, r.at)
    decreases |order|
  {
    if order == [] then Done(s)
    else match Step(s, order[0], env)
      case None => Stopped(s, order[0])
      case Some(t) =>
        var r := Drain(t, order[1..], env);
        assert r.Final().events[..|s.events|] == r.Final().events[..|t.events|][..|s.events|];
        r
  }

  /** A drain is its first visit followed by the drain of the remaining keys. */
  lemma DrainCons(s: State, order: seq<string>, env: Env)
    requires order != []
    ensures Step(s, order[0], env).None? ==> Drain(s, order, env) == Stopped(s, order[0])
    ensures Step(s, order[0], env).Some? ==> Drain(s, order, env) == Drain(Step(s, order[0], env).value, order[1..], env)
  {
  }
}

/** Properties of a drain, and the imperative operations proved against the functions above. */
module QueueDrain {
  import opened Inbound
  import opened QueueKeys
  import opened OffHours
  import opened Caching
  import opened Sheets
  import opened Users
  import opened Queue

  /** The first-author ids of the payloads in a cache: the only keys a drain may write. */
  function AuthorIds(cache: map<string, CacheEntry>): set<string> {
    set k | k in cache && cache[k].Queued? && Truthy(FirstAuthorId(cache[k].ev)) :: FirstAuthorId(cache[k].ev).value
  }

  /** Every key is still to be visited or is a user name under one of `ids`, and every payload's
      author is in `ids`. */
  ghost predicate Pending(cache: map<string, CacheEntry>, rest: seq<string>, ids: set<string>) {
    && (forall k :: k in cache ==> k in rest || (cache[k].Text? && k in ids))
    && AuthorIds(cache) <= ids
  }

  lemma StepPending(s: State, order: seq<string>, env: Env, ids: set<string>)
    requires order != [] && Pending(s.cache, order, ids)
    requires Step(s, order[0], env).Some?
    ensures Pending(Step(s, order[0], env).value.cache, order[1..], ids)
  {
    var k := order[0];
    var t := Step(s, k, env).value;
    var mid := if Typed(s.cache, k) then Save(s, s.cache[k].ev, env.locked(k), env.stamp(k), env.lookup) else s;
    assert t.cache == mid.cache - {k};
    // The only key a save can add is the author id of the payload at `k`.
    assert mid.cache == s.cache || (
      Typed(s.cache, k) && Truthy(FirstAuthorId(s.cache[k].ev)) &&
      mid.cache == s.cache[FirstAuthorId(s.cache[k].ev).value := mid.cache[FirstAuthorId(s.cache[k].ev).value]] &&
      mid.cache[FirstAuthorId(s.cache[k].ev).value].Text? &&
      FirstAuthorId(s.cache[k].ev).value in AuthorIds(s.cache));
    forall j | j in t.cache
      ensures j in order[1..] || (t.cache[j].Text? && j in ids)
    {
      if mid.cache != s.cache && j == FirstAuthorId(s.cache[k].ev).value {
      } else {
        assert j in s.cache && t.cache[j] == s.cache[j] && j != k;
        if j in order {
          assert j in order[1..];
        }
      }
    }
    forall x | x in AuthorIds(t.cache)
      ensures x in ids
    {
      var j :| j in t.cache && t.cache[j].Queued? && Truthy(FirstAuthorId(t.cache[j].ev)) && x == FirstAuthorId(t.cache[j].ev).value;
      assert j in s.cache && s.cache[j] == t.cache[j];
      assert x in AuthorIds(s.cache);
    }
  }

  lemma {:induction false} DrainPending(s: State, order: seq<string>, env: Env, ids: set<string>)
    requires Pending(s.cache, order, ids)
    requires Drain(s, order, env).Done?
    ensures forall k :: k in Drain(s, order, env).Final().cache ==>
      Drain(s, order, env).Final().cache[k].Text? && k in ids
    decreases |order|
  {
    if order != [] {
      StepPending(s, order, env, ids);
      DrainPending(Step(s, order[0], env).value, order[1..], env, ids);
    }
  }

  /** After a drain that visits every key without an exception, no queued payload is left:
      what remains are user names written during the drain under the authors' bare ids. */
  lemma DrainClears(cache: map<string, CacheEntry>, events: seq<Row>, order: seq<string>, env: Env)
    requires forall k :: k in cache ==> k in order
    requires Drain(State(cache, events), order, env).Done?
    ensures forall k :: k in Drain(State(cache, events), order, env).Final().cache ==>
      Drain(State(cache, events), order, env).Final().cache[k].Text? && k in AuthorIds(cache)
  {
    DrainPending(State(cache, events), order, env, AuthorIds(cache));
  }

  /** When no author id is itself a listed key, a drain that visits every key leaves no key
      that was present at the start. */
  lemma DrainClearsStart(cache: map<string, CacheEntry>, events: seq<Row>, order: seq<string>, env: Env)
    requires forall k :: k in cache ==> k in order
    requires NoAuthorClash(cache, order)
    requires Drain(State(cache, events), order, env).Done?
    ensures forall k :: k in Drain(State(cache, events), order, env).Final().cache ==> k !in cache
  {
    DrainClears(cache, events, order, env);
    var f := Drain(State(cache, events), order, env).Final();
    forall k | k in f.cache
      ensures k !in cache
    {
      assert k in AuthorIds(cache);
      var m :| m in cache && cache[m].Queued? && Truthy(FirstAuthorId(cache[m].ev)) && k == FirstAuthorId(cache[m].ev).value;
      assert k !in order;
    }
  }

  /** The listed keys holding a typed payload whose save takes the lock, in listing order. */
  function SavedKeys(cache: map<string, CacheEntry>, order: seq<string>, env: Env): (ks: seq<string>)
    ensures |ks| <= |order|
    ensures forall x :: x in ks ==> x in order && Typed(cache, x) && env.locked(x)
    decreases |order|
  {
    if order == [] then []
    else (if Typed(cache, order[0]) && env.locked(order[0]) then [order[0]] else []) + SavedKeys(cache, order[1..], env)
  }

  /** `getKeys()` lists each key once. */
  predicate NoRepeats(order: seq<string>) {
    forall i, j :: 0 <= i < j < |order| ==> order[i] != order[j]
  }

  /** No payload's first author id is itself one of the listed keys. */
  ghost predicate NoAuthorClash(cache: map<string, CacheEntry>, order: seq<string>) {
    forall k :: k in cache && cache[k].Queued? && Truthy(FirstAuthorId(cache[k].ev)) ==> FirstAuthorId(cache[k].ev).value !in order
  }

  /** A key of the form `resolveUser` reads: it starts with `USER_`. */
  predicate IsUserKey(key: string) {
    |key| >= 5 && key[..5] == "USER_"
  }

  /** No payload's first author id starts with `USER_`, so no name written under a bare id is
      ever read back as a cached name. */
  ghost predicate NoUserKeyAuthor(cache: map<string, CacheEntry>) {
    forall k :: k in cache && cache[k].Queued? && Truthy(FirstAuthorId(cache[k].ev)) ==> !IsUserKey(FirstAuthorId(cache[k].ev).value)
  }

  /** `rows` are the rows `saveEvent` writes for `keys`, one each and in the same order, each
      carrying the user its payload resolves to on `cache`. */
  ghost predicate RowsFor(rows: seq<Row>, cache: map<string, CacheEntry>, keys: seq<string>, env: Env) {
    && |rows| == |keys|
    && forall j :: 0 <= j < |keys| ==>
         Typed(cache, keys[j]) &&
         rows[j] == EventRow(env.stamp(keys[j]), cache[keys[j]].ev, Resolve(cache, cache[keys[j]].ev, env.lookup).name)
  }

  lemma {:induction false} SavedKeysAgree(c1: map<string, CacheEntry>, c2: map<string, CacheEntry>, order: seq<string>, env: Env)
    requires forall j :: j in order ==> (j in c1 <==> j in c2) && (j in c1 ==> c1[j] == c2[j])
    ensures SavedKeys(c1, order, env) == SavedKeys(c2, order, env)
    decreases |order|
  {
    if order != [] {
      SavedKeysAgree(c1, c2, order[1..], env);
    }
  }

  /** A step on the first listed key leaves every later listed key as it was. */
  lemma StepKeepsRest(s: State, order: seq<string>, env: Env)
    requires order != [] && NoRepeats(order) && NoAuthorClash(s.cache, order)
    requires Step(s, order[0], env).Some?
    ensures var t := Step(s, order[0], env).value;
      && (forall j :: j in order[1..] ==> (j in t.cache <==> j in s.cache) && (j in s.cache ==> t.cache[j] == s.cache[j]))
      && NoRepeats(order[1..]) && NoAuthorClash(t.cache, order[1..])
  {
    var k := order[0];
    var t := Step(s, k, env).value;
    forall j | j in order[1..]
      ensures j != k && !WritesAuthor(s.cache, k, j)
    {
      var i :| 0 <= i < |order[1..]| && order[1..][i] == j;
      assert order[i + 1] == j;
      assert j in order;
    }
  }

  /** A step changes no resolved name: the key it removes held no cached name (or the step
      would have thrown), and the name it may write goes under a key `resolveUser` never reads. */
  lemma StepKeepsNames(s: State, k: string, env: Env)
    requires Step(s, k, env).Some? && NoUserKeyAuthor(s.cache)
    ensures var t := Step(s, k, env).value;
      && (forall ev :: Resolve(t.cache, ev, env.lookup).name == Resolve(s.cache, ev, env.lookup).name)
      && NoUserKeyAuthor(t.cache)
  {
    var t := Step(s, k, env).value;
    forall ev
      ensures Resolve(t.cache, ev, env.lookup).name == Resolve(s.cache, ev, env.lookup).name
    {
      if Truthy(FirstAuthorId(ev)) {
        var u := UserKey(FirstAuthorId(ev).value);
        assert u[..5] == "USER_";
        if u != k {
          assert !WritesAuthor(s.cache, k, u);
          assert (u in t.cache <==> u in s.cache) && (u in s.cache ==> t.cache[u] == s.cache[u]);
        }
        assert CacheHit(t.cache, u) == CacheHit(s.cache, u);
      }
    }
  }

  /** Rows written for keys whose entries and resolved names two caches agree on are rows for
      either cache. */
  lemma RowsForAgree(rows: seq<Row>, c1: map<string, CacheEntry>, c2: map<string, CacheEntry>, keys: seq<string>, env: Env)
    requires RowsFor(rows, c1, keys, env)
    requires forall j :: j in keys ==> (j in c1 <==> j in c2) && (j in c1 ==> c1[j] == c2[j])
    requires forall ev :: Resolve(c1, ev, env.lookup).name == Resolve(c2, ev, env.lookup).name
    ensures RowsFor(rows, c2, keys, env)
  {
    forall j | 0 <= j < |keys|
      ensures Typed(c2, keys[j]) && c2[keys[j]] == c1[keys[j]]
    {
      assert keys[j] in keys;
    }
  }

  lemma RowsForCons(row: Row, rows: seq<Row>, cache: map<string, CacheEntry>, k: string, keys: seq<string>, env: Env)
    requires RowsFor(rows, cache, keys, env)
    requires Typed(cache, k) && row == EventRow(env.stamp(k), cache[k].ev, Resolve(cache, cache[k].ev, env.lookup).name)
    ensures RowsFor([row] + rows, cache, [k] + keys, env)
  {
    var ks, rs := [k] + keys, [row] + rows;
    forall j | 0 <= j < |ks|
      ensures Typed(cache, ks[j]) && rs[j] == EventRow(env.stamp(ks[j]), cache[ks[j]].ev, Resolve(cache, cache[ks[j]].ev, env.lookup).name)
    {
      if j > 0 {
        assert ks[j] == keys[j - 1] && rs[j] == rows[j - 1];
      }
    }
  }

  /** Dropping a prefix of a sequence that extends `mid` splits at the end of `mid`. */
  lemma DropExtended(all: seq<Row>, mid: seq<Row>, n: nat)
    requires n <= |mid| <= |all| && all[..|mid|] == mid
    ensures all[n..] == mid[n..] + all[|mid|..]
  {
    assert all == mid + all[|mid|..];
  }

  /** The rows of a drain are those of its first step followed by those of the rest. */
  lemma DrainEventsSplit(s: State, order: seq<string>, env: Env)
    requires order != [] && Step(s, order[0], env).Some?
    ensures var t := Step(s, order[0], env).value;
      Drain(s, order, env).Final().events[|s.events|..] ==
        t.events[|s.events|..] + Drain(t, order[1..], env).Final().events[|t.events|..]
  {
    var t := Step(s, order[0], env).value;
    var f := Drain(t, order[1..], env).Final();
    assert Drain(s, order, env) == Drain(t, order[1..], env);
    assert |s.events| <= |t.events| <= |f.events|;
    DropExtended(f.events, t.events, |s.events|);
  }

  /** The position of `x` in the key listing. */
  function Position(order: seq<string>, x: string): (i: nat)
    requires x in order
    ensures i < |order| && order[i] == x
  {
    if order[0] == x then 0 else 1 + Position(order[1..], x)
  }

  /** The first-author ids of the payloads among `keys` whose save takes the lock: the keys a
      drain over `keys` may write a user name under. */
  function SavedAuthors(cache: map<string, CacheEntry>, keys: seq<string>, env: Env): set<string> {
    set k | k in keys && Typed(cache, k) && env.locked(k) && Truthy(FirstAuthorId(cache[k].ev)) :: FirstAuthorId(cache[k].ev).value
  }

  /** A step leaves alone every key other than its own and the author id it saves a name under. */
  lemma StepKeepsOthers(s: State, k: string, env: Env, j: string)
    requires Step(s, k, env).Some? && j != k
    requires !(Typed(s.cache, k) && env.locked(k) && WritesAuthor(s.cache, k, j))
    ensures var t := Step(s, k, env).value;
      (j in t.cache <==> j in s.cache) && (j in s.cache ==> t.cache[j] == s.cache[j])
  {
    if Typed(s.cache, k) && !env.locked(k) {
      assert Step(s, k, env).value.cache == s.cache - {k};
    }
  }

  /** The authors saved for by the keys after a step are authors saved for by the whole run. */
  lemma SavedAuthorsStep(s: State, k: string, env: Env, keys: seq<string>)
    requires Step(s, k, env).Some?
    ensures SavedAuthors(Step(s, k, env).value.cache, keys, env) <= SavedAuthors(s.cache, [k] + keys, env)
    ensures forall j :: Typed(s.cache, k) && env.locked(k) && WritesAuthor(s.cache, k, j) ==>
      j in SavedAuthors(s.cache, [k] + keys, env)
  {
    var t := Step(s, k, env).value;
    forall j | j in SavedAuthors(t.cache, keys, env)
      ensures j in SavedAuthors(s.cache, [k] + keys, env)
    {
      var m :| m in keys && Typed(t.cache, m) && env.locked(m) && Truthy(FirstAuthorId(t.cache[m].ev)) && j == FirstAuthorId(t.cache[m].ev).value;
      assert t.cache[m] == s.cache[m];
      assert m in [k] + keys;
    }
    assert k in [k] + keys;
  }

  /** A listing without repeats has none after its first key either. */
  lemma NoRepeatsTail(order: seq<string>)
    requires NoRepeats(order) && order != []
    ensures NoRepeats(order[1..])
  {
    var rest := order[1..];
    forall a, b | 0 <= a < b < |rest|
      ensures rest[a] != rest[b]
    {
      assert rest[a] == order[a + 1] && rest[b] == order[b + 1];
    }
  }

  /** In a listing without repeats, a key after the first one is not the first one, and the keys
      before it are the first key followed by the keys before it in the rest. */
  lemma PositionTail(order: seq<string>, x: string)
    requires NoRepeats(order) && order != [] && x in order[1..]
    ensures NoRepeats(order[1..])
    ensures x != order[0] && Position(order, x) == 1 + Position(order[1..], x)
    ensures order[..Position(order, x)] == [order[0]] + order[1..][..Position(order[1..], x)]
  {
    var rest := order[1..];
    NoRepeatsTail(order);
    var i := Position(rest, x);
    assert order[i + 1] == x;
  }

  /** A drain stopped by an exception leaves every key it did not visit as it was before the
      drain, the key it stopped at included, unless a payload saved before the stop had that
      key as its first author id, in which case the key may now hold that author's name. */
  lemma {:induction false} DrainStoppedKeepsRest(s: State, order: seq<string>, env: Env)
    requires NoRepeats(order)
    requires Drain(s, order, env).Stopped?
    ensures var r := Drain(s, order, env);
      var visited := order[..Position(order, r.at)];
      forall j :: j !in visited && j !in SavedAuthors(s.cache, visited, env) ==>
        (j in r.Final().cache <==> j in s.cache) &&
        (j in s.cache ==> r.Final().cache[j] == s.cache[j])
    decreases |order|
  {
    var r := Drain(s, order, env);
    var k := order[0];
    if Step(s, k, env).None? {
      assert r.Final() == s;
      return;
    }
    var t := Step(s, k, env).value;
    var rest := order[1..];
    assert r == Drain(t, rest, env);
    PositionTail(order, r.at);
    DrainStoppedKeepsRest(t, rest, env);
    var p := Position(rest, r.at);
    var visited := order[..1 + p];
    SavedAuthorsStep(s, k, env, rest[..p]);
    forall j | j !in visited && j !in SavedAuthors(s.cache, visited, env)
      ensures (j in r.Final().cache <==> j in s.cache) && (j in s.cache ==> r.Final().cache[j] == s.cache[j])
    {
      assert j != k && j !in rest[..p];
      StepKeepsOthers(s, k, env, j);
    }
  }

  /** The first position of `x` is at or before any position holding it. */
  lemma {:induction false} PositionFirst(order: seq<string>, x: string, i: nat)
    requires i < |order| && order[i] == x
    ensures Position(order, x) <= i
    decreases i
  {
    if order[0] != x {
      assert order[1..][i - 1] == x;
      PositionFirst(order[1..], x, i - 1);
    }
  }

  /** A stored user name stays an unparseable name across a visit of another key: the visit
      either leaves it alone or overwrites it with another non-empty name. */
  lemma UnparseableStays(s: State, k: string, env: Env, j: string)
    requires Step(s, k, env).Some? && j != k && Unparseable(s.cache, j)
    ensures Unparseable(Step(s, k, env).value.cache, j)
  {
    if Typed(s.cache, k) && env.locked(k) && WritesAuthor(s.cache, k, j) {
      var r := Resolve(s.cache, s.cache[k].ev, env.lookup);
      assert r.cache == s.cache || r.cache == s.cache[j := Text(r.name)];
    } else {
      StepKeepsOthers(s, k, env, j);
    }
  }

  /** A listed key holding a stored user name stops the drain, there or at an earlier key. */
  lemma {:induction false} StopsBy(s: State, order: seq<string>, env: Env, j: string)
    requires j in order && Unparseable(s.cache, j)
    ensures Drain(s, order, env).Stopped? && Position(order, Drain(s, order, env).at) <= Position(order, j)
    decreases |order|
  {
    var k := order[0];
    DrainCons(s, order, env);
    if Step(s, k, env).None? {
      return;
    }
    var t := Step(s, k, env).value;
    UnparseableStays(s, k, env, j);
    assert j in order[1..];
    StopsBy(t, order[1..], env, j);
  }

  /** The rows of one visit followed by rows for the keys after it, whose entries the visit
      left alone, are the rows for the saved keys among the visited key and those keys. */
  lemma RowsStep(s: State, k: string, env: Env, keys: seq<string>, tail: seq<Row>)
    requires Step(s, k, env).Some? && NoUserKeyAuthor(s.cache)
    requires var t := Step(s, k, env).value;
      && RowsFor(tail, t.cache, SavedKeys(t.cache, keys, env), env)
      && forall j :: j in keys ==> (j in t.cache <==> j in s.cache) && (j in s.cache ==> t.cache[j] == s.cache[j])
    ensures var t := Step(s, k, env).value;
      RowsFor(t.events[|s.events|..] + tail, s.cache, SavedKeys(s.cache, [k] + keys, env), env)
  {
    var t := Step(s, k, env).value;
    StepKeepsNames(s, k, env);
    SavedKeysAgree(t.cache, s.cache, keys, env);
    assert ([k] + keys)[1..] == keys;
    RowsForAgree(tail, t.cache, s.cache, SavedKeys(s.cache, keys, env), env);
    if Typed(s.cache, k) && env.locked(k) {
      var row := t.events[|s.events|];
      assert t.events[|s.events|..] == [row];
      RowsForCons(row, tail, s.cache, k, SavedKeys(s.cache, keys, env), env);
    } else {
      assert t.events[|s.events|..] == [];
      assert [] + tail == tail;
    }
  }

  /** A visit leaves alone every key listed after it and before the key the drain stops at. */
  lemma StepKeepsBeforeStop(s: State, order: seq<string>, env: Env)
    requires NoRepeats(order) && order != [] && Step(s, order[0], env).Some?
    requires var t := Step(s, order[0], env).value;
      Drain(t, order[1..], env).Stopped? && Drain(t, order[1..], env).at in order[1..]
    ensures var t := Step(s, order[0], env).value;
      var before := order[1..][..Position(order[1..], Drain(t, order[1..], env).at)];
      forall j :: j in before ==> (j in t.cache <==> j in s.cache) && (j in s.cache ==> t.cache[j] == s.cache[j])
  {
    var k := order[0];
    var t := Step(s, k, env).value;
    var rest := order[1..];
    var p := Position(rest, Drain(t, rest, env).at);
    forall j | j in rest[..p]
      ensures (j in t.cache <==> j in s.cache) && (j in s.cache ==> t.cache[j] == s.cache[j])
    {
      var i :| 0 <= i < p && rest[..p][i] == j;
      assert rest[i] == j && order[i + 1] == j;
      PositionFirst(rest, j, i);
      if Typed(s.cache, k) && env.locked(k) && WritesAuthor(s.cache, k, j) {
        var rr := Resolve(s.cache, s.cache[k].ev, env.lookup);
        if rr.cache == s.cache {
          assert t.cache == s.cache - {k};
        } else {
          assert rr.cache == s.cache[j := Text(rr.name)];
          assert Unparseable(t.cache, j);
          StopsBy(t, rest, env, j);
          assert false;
        }
      } else {
        StepKeepsOthers(s, k, env, j);
      }
    }
  }

  /** A drain stopped by an exception has written one row per key it saved before the stop, in
      listing order, each with the user its payload resolves to on the starting cache. No key
      visited before the stop can have been overwritten by an earlier save: the name written
      there would have stopped the drain at that key. */
  lemma {:induction false} DrainRowsStopped(s: State, order: seq<string>, env: Env)
    requires NoRepeats(order) && NoUserKeyAuthor(s.cache)
    requires Drain(s, order, env).Stopped?
    ensures var r := Drain(s, order, env);
      RowsFor(r.Final().events[|s.events|..], s.cache, SavedKeys(s.cache, order[..Position(order, r.at)], env), env)
    decreases |order|
  {
    var r := Drain(s, order, env);
    var k := order[0];
    DrainCons(s, order, env);
    if Step(s, k, env).None? {
      assert order[..Position(order, r.at)] == [];
      return;
    }
    var t := Step(s, k, env).value;
    var rest := order[1..];
    PositionTail(order, r.at);
    StepKeepsNames(s, k, env);
    DrainRowsStopped(t, rest, env);
    var before := rest[..Position(rest, r.at)];
    StepKeepsBeforeStop(s, order, env);
    DrainEventsSplit(s, order, env);
    RowsStep(s, k, env, before, r.Final().events[|t.events|..]);
  }

  /** In a drain that goes on to complete, a visit leaves alone every key listed after it: a
      name it wrote under such a key would have stopped the drain there. */
  lemma StepKeepsRestDone(s: State, order: seq<string>, env: Env)
    requires NoRepeats(order) && order != [] && Step(s, order[0], env).Some?
    requires Drain(Step(s, order[0], env).value, order[1..], env).Done?
    ensures var t := Step(s, order[0], env).value;
      forall j :: j in order[1..] ==> (j in t.cache <==> j in s.cache) && (j in s.cache ==> t.cache[j] == s.cache[j])
  {
    var k := order[0];
    var t := Step(s, k, env).value;
    var rest := order[1..];
    forall j | j in rest
      ensures (j in t.cache <==> j in s.cache) && (j in s.cache ==> t.cache[j] == s.cache[j])
    {
      var i :| 0 <= i < |rest| && rest[i] == j;
      assert order[i + 1] == j;
      if Typed(s.cache, k) && env.locked(k) && WritesAuthor(s.cache, k, j) {
        var rr := Resolve(s.cache, s.cache[k].ev, env.lookup);
        if rr.cache == s.cache {
          assert t.cache == s.cache - {k};
        } else {
          assert rr.cache == s.cache[j := Text(rr.name)];
          assert Unparseable(t.cache, j);
          StopsBy(t, rest, env, j);
          assert false;
        }
      } else {
        StepKeepsOthers(s, k, env, j);
      }
    }
  }

  /** A drain that visits every key writes one row per listed key holding a typed payload whose
      save takes the lock, in listing order, each with the user its payload resolves to on the
      starting cache, and none for any other key. */
  lemma {:induction false} DrainRows(s: State, order: seq<string>, env: Env)
    requires NoRepeats(order) && NoUserKeyAuthor(s.cache)
    requires Drain(s, order, env).Done?
    ensures RowsFor(Drain(s, order, env).Final().events[|s.events|..], s.cache, SavedKeys(s.cache, order, env), env)
    decreases |order|
  {
    if order == [] {
      return;
    }
    var k := order[0];
    var rest := order[1..];
    DrainCons(s, order, env);
    var t := Step(s, k, env).value;
    NoRepeatsTail(order);
    StepKeepsNames(s, k, env);
    DrainRows(t, rest, env);
    StepKeepsRestDone(s, order, env);
    DrainEventsSplit(s, order, env);
    assert order == [k] + rest;
    RowsStep(s, k, env, rest, Drain(t, rest, env).Final().events[|t.events|..]);
  }

  /** When no payload's first author is listed, a stopped drain leaves the key it stopped at and
      every key listed after it exactly as they were. */
  lemma DrainStoppedNoClash(s: State, order: seq<string>, env: Env)
    requires NoRepeats(order) && NoAuthorClash(s.cache, order)
    requires Drain(s, order, env).Stopped?
    ensures var r := Drain(s, order, env);
      forall j :: Position(order, r.at) <= j < |order| ==>
        (order[j] in r.Final().cache <==> order[j] in s.cache) &&
        (order[j] in s.cache ==> r.Final().cache[order[j]] == s.cache[order[j]])
  {
    var r := Drain(s, order, env);
    var p := Position(order, r.at);
    DrainStoppedKeepsRest(s, order, env);
    forall j | p <= j < |order|
      ensures order[j] !in order[..p] && order[j] !in SavedAuthors(s.cache, order[..p], env)
    {
      assert order[j] in order;
    }
  }

  /** A typed payload whose save cannot take the lock is removed all the same: the event is lost. */
  lemma LockFailureLosesEvent(k: string, ev: Event, events: seq<Row>, env: Env)
    requires Truthy(ev.kind) && !env.locked(k)
    ensures Drain(State(map[k := Queued(ev)], events), [k], env) == Done(State(map[], events))
  {
    var s := State(map[k := Queued(ev)], events);
    assert Step(s, k, env) == Some(State(map[], events));
    assert [k][1..] == [];
  }

  /** A cache read key never collides with a queue key: they start 'U' and 'Q'. */
  lemma UserKeyNotQueueKey(id: string, ms: nat)
    ensures UserKey(id) != QueueKey(ms)
  {
    assert UserKey(id)[0] == 'U';
    assert QueueKey(ms)[0] == 'Q';
  }

  /** One event enqueued into an empty cache and drained once yields exactly one row when its
      `type` is set and the lock is taken, no row otherwise, and leaves no payload behind. */
  lemma EnqueueThenDrain(ev: Event, ms: nat, events: seq<Row>, env: Env)
    ensures var k := QueueKey(ms);
      var r := Drain(State(map[k := Queued(ev)], events), [k], env);
      && r.Done?
      && r.Final().events == events +
           (if Truthy(ev.kind) && env.locked(k)
            then [EventRow(env.stamp(k), ev, Resolve(map[], ev, env.lookup).name)] else [])
      && forall j :: j in r.Final().cache ==> r.Final().cache[j].Text? && Some(j) == FirstAuthorId(ev)
  {
    var k := QueueKey(ms);
    var cache := map[k := Queued(ev)];
    var s := State(cache, events);
    assert [k][1..] == [];
    assert Drain(s, [k], env) == Done(Step(s, k, env).value);
    if Truthy(ev.kind) && env.locked(k) && Truthy(FirstAuthorId(ev)) {
      UserKeyNotQueueKey(FirstAuthorId(ev).value, ms);
      assert Resolve(cache, ev, env.lookup).name == Resolve(map[], ev, env.lookup).name;
    }
    DrainClears(cache, events, [k], env);
    forall x | x in AuthorIds(cache)
      ensures Some(x) == FirstAuthorId(ev)
    {
    }
  }

  /** `SimpleQueue.enqueue(obj)`: the payload is stored under `'Q_' + Date.now()`, replacing
      whatever was stored there (the follow-up trigger is not modelled). */
  method Enqueue(c: ScriptCache, ev: Event, nowMs: nat)
    modifies c
    ensures c.entries == old(c.entries)[QueueKey(nowMs) := Queued(ev)]
  {
    c.entries := c.entries[QueueKey(nowMs) := Queued(ev)];
  }

  /** `saveEvent(ev)` on the script cache and the Events table. */
  method SaveEvent(c: ScriptCache, book: Spreadsheet, ev: Event, locked: bool, stamp: int, lookup: string -> Fetch)
    requires book.Valid()
    modifies c, book
    ensures book.Valid()
    ensures book.tables == old(book.tables)[Events := book.tables[Events]]
    ensures State(c.entries, book.tables[Events]) == Save(State(old(c.entries), old(book.tables)[Events]), ev, locked, stamp, lookup)
  {
    if !locked {
      return;
    }
    var user := ResolveUser(c, ev, lookup);
    book.tables := book.tables[Events := book.tables[Events] + [EventRow(stamp, ev, user)]];
  }

  /** One iteration of the `forEach` in `dequeue` on key `k`: `stop` when `JSON.parse` throws,
      with nothing changed; otherwise the cache and Events table after `Step`. */
  method Visit(c: ScriptCache, book: Spreadsheet, k: string, env: Env) returns (stop: bool)
    requires book.Valid()
    modifies c, book
    ensures book.Valid()
    ensures book.tables == old(book.tables)[Events := book.tables[Events]]
    ensures var r := Step(State(old(c.entries), old(book.tables)[Events]), k, env);
      && (stop <==> r.None?)
      && (r.None? ==> c.entries == old(c.entries) && book.tables == old(book.tables))
      && (r.Some? ==> State(c.entries, book.tables[Events]) == r.value)
  {
    if k in c.entries && c.entries[k].Text? && c.entries[k].s != "" {
      return true;
    }
    if k in c.entries && c.entries[k].Queued? && Truthy(c.entries[k].ev.kind) {
      SaveEvent(c, book, c.entries[k].ev, env.locked(k), env.stamp(k), env.lookup);
    }
    c.entries := c.entries - {k};
    stop := false;
  }

  /** `SimpleQueue.dequeue()`, visiting the keys in `order` (the listing `getKeys()` returns).
      The result names the key whose value `JSON.parse` rejected, if any. */
  method Dequeue(c: ScriptCache, book: Spreadsheet, order: seq<string>, env: Env) returns (stoppedAt: Option<string>)
    requires book.Valid()
    requires forall k :: k in c.entries ==> k in order
    modifies c, book
    ensures book.Valid()
    ensures book.tables == old(book.tables)[Events := book.tables[Events]]
    ensures var r := Drain(State(old(c.entries), old(book.tables)[Events]), order, env);
      && State(c.entries, book.tables[Events]) == r.Final()
      && (r.Done? <==> stoppedAt.None?)
      && (r.Stopped? ==> stoppedAt == Some(r.at))
    ensures stoppedAt.None? ==> forall k :: k in c.entries ==> c.entries[k].Text? && k in AuthorIds(old(c.entries))
  {
    ghost var start := State(c.entries, book.tables[Events]);
    if Drain(start, order, env).Done? {
      DrainClears(c.entries, book.tables[Events], order, env);
    }
    var i := 0;
    while i < |order|
      invariant 0 <= i <= |order|
      invariant book.Valid()
      invariant book.tables == old(book.tables)[Events := book.tables[Events]]
      invariant Drain(State(c.entries, book.tables[Events]), order[i..], env) == Drain(start, order, env)
    {
      var k := order[i];
      ghost var cur := State(c.entries, book.tables[Events]);
      assert order[i..][1..] == order[i + 1..];
      DrainCons(cur, order[i..], env);
      var stop := Visit(c, book, k, env);
      if stop {
        stoppedAt := Some(k);
        return;
      }
      i := i + 1;
    }
    stoppedAt := None;
  }

  /** `doPost(e)`: the reply is always 'ok'. A payload that parses is queued exactly when it is
      classified off-hours; a parse failure or a calendar exception is swallowed. */
  method DoPost(c: ScriptCache, store: ScriptProperties, body: Option<Event>,
                hour: int, weekday: int, dateKey: string, cal: Calendar, nowMs: nat) returns (reply: string)
    modifies c, store
    ensures reply == "ok"
    ensures var r := OffHoursAt(old(store.props), hour, weekday, dateKey, cal);
      && store.props == (if body.Some? then r.props else old(store.props))
      && c.entries == (if body.Some? && r.answer == Some(true)
                       then old(c.entries)[QueueKey(nowMs) := Queued(body.value)]
                       else old(c.entries))
  {
    reply := "ok";
    if body.None? {
      return;
    }
    var off := OffHoursCheck(store, hour, weekday, dateKey, cal);
    if off == Some(true) {
      Enqueue(c, body.value, nowMs);
    }
  }
}

=== FILE: sheets.dfy ===
/** The log spreadsheet: three tables of rows, and the retention rule `prune`. */
module Sheets {

  /** A row: its timestamp (column 1) and the remaining cells. */
  datatype Row = Row(stamp: int, cells: seq<string>)

  datatype Table = Events | DebugLogs | SlackLogs

  /** `['Events', 'DebugLogs', 'SlackLogs']`, in the order `pruneAll` visits them. */
  const AllTables: seq<Table> := [Events, DebugLogs, SlackLogs]

  const Ceiling := 2000
  const Block := 1000

  /** `s.slice(0, n)` */
  function Slice(s: string, n: nat): (r: string)
    ensures |r| <= n && |r| <= |s| && r == s[..|r|]
    ensures |s| <= n ==> r == s
    ensures |s| >= n ==> |r| == n
  {
    if |s| <= n then s else s[..n]
  }

  /** `prune`: a table whose last row is past 2000 loses rows 2..1001 (`deleteRows(2, 1000)`). */
  function Pruned<T>(rows: seq<T>): (r: seq<T>)
    ensures |rows| <= Ceiling ==> r == rows
    ensures |rows| > Ceiling ==> |r| == |rows| - Block
    ensures |rows| > 0 ==> |r| > 0 && r[0] == rows[0]
  {
    if |rows| > Ceiling then rows[..1] + rows[1 + Block..] else rows
  }

  /** The rows that survive keep their order: row i of the result is row i + 1000 of the input. */
  lemma PrunedKeepsOrder<T>(rows: seq<T>, i: nat)
    requires |rows| > Ceiling
    requires 1 <= i < |Pruned(rows)|
    ensures Pruned(rows)[i] == rows[i + Block]
  {
  }

  /** Appending one row to a table within the ceiling and pruning keeps it within the ceiling. */
  lemma PrunedBound<T>(rows: seq<T>, row: T)
    requires |rows| <= Ceiling
    ensures |Pruned(rows + [row])| <= Ceiling
  {
  }

  /** A second prune right after a first is a no-op unless the table was past 3000 rows. */
  lemma PrunedIdempotent<T>(rows: seq<T>)
    requires |rows| <= Ceiling + Block
    ensures Pruned(Pruned(rows)) == Pruned(rows)
  {
  }

  class Spreadsheet {
    var tables: map<Table, seq<Row>>

    /** Every table exists (`getSheet` creates a missing one empty on first use). */
    ghost predicate Valid()
      reads this
    {
      forall t: Table :: t in tables
    }

    /** `prune(getSheet(t))` */
    method Prune(t: Table)
      requires Valid()
      modifies this
      ensures Valid()
      ensures tables == old(tables)[t := Pruned(old(tables)[t])]
    {
      if |tables[t]| > Ceiling {
        tables := tables[t := tables[t][..1] + tables[t][1 + Block..]];
      }
    }

    /** `pruneAll`: every table pruned once, in turn. */
    method PruneAll()
      requires Valid()
      modifies this
      ensures Valid()
      ensures forall t: Table :: tables[t] == Pruned(old(tables)[t])
    {
      for i := 0 to |AllTables|
        invariant Valid()
        invariant forall j :: 0 <= j < i ==> tables[AllTables[j]] == Pruned(old(tables)[AllTables[j]])
        invariant forall j :: i <= j < |AllTables| ==> tables[AllTables[j]] == old(tables)[AllTables[j]]
      {
        Prune(AllTables[i]);
      }
      forall t: Table
        ensures tables[t] == Pruned(old(tables)[t])
      {
        assert t == AllTables[if t == Events then 0 else if t == DebugLogs then 1 else 2];
      }
    }
  }
}

=== FILE: slack.dfy ===
/** Chat messages and the one effect of posting them that stays inside the script:
    `logSlack('response', res)` appends the reply to SlackLogs and prunes that table. */
module Slack {
  import opened Sheets

  /** The messages the script posts (header text and emoji are not modelled). */
  datatype Message =
    | DigestMessage(body: string, sheetUrl: string)
    | HealthWarning(code: int, excerpt: string)
    | WebhookResumed

  const LogLimit := 2000

  function SlackLogRow(stamp: int, reply: string): (r: Row)
    ensures r.stamp == stamp
    ensures |r.cells| == 3 && r.cells[..2] == ["INFO", "response"]
    ensures r.cells[2] == Slice(reply, LogLimit) && |r.cells[2]| <= LogLimit
  {
    Row(stamp, ["INFO", "response", Slice(reply, LogLimit)])
  }

  /** `logSlack('response', reply)`, as run by `postSlack` after the chat API answers `reply`. */
  method LogSlack(book: Spreadsheet, reply: string, stamp: int)
    requires book.Valid()
    modifies book
    ensures book.Valid()
    ensures book.tables == old(book.tables)[SlackLogs := Pruned(old(book.tables)[SlackLogs] + [SlackLogRow(stamp, reply)])]
  {
    book.tables := book.tables[SlackLogs := book.tables[SlackLogs] + [SlackLogRow(stamp, reply)]];
    book.Prune(SlackLogs);
  }
}

=== FILE: url.dfy ===
/** `makeNotionUrl`: the page link stored in column 4 of an Events row. */
module NotionUrl {
  import opened Inbound

  const Prefix := "https://www.notion.so/"

  /** `s.replace(/-/g, '')` */
  function StripDashes(s: string): (r: string)
    ensures |r| <= |s|
    ensures forall i :: 0 <= i < |r| ==> r[i] != '-'
  {
    if s == [] then [] else (if s[0] == '-' then [] else [s[0]]) + StripDashes(s[1..])
  }

  /** Removing dashes works piecewise, so a dash anywhere in the id is dropped and
      nothing around it is disturbed. */
  lemma {:induction false} StripDashesAppend(a: string, b: string)
    ensures StripDashes(a + b) == StripDashes(a) + StripDashes(b)
    decreases |a|
  {
    if a != [] {
      assert (a + b)[1..] == a[1..] + b;
      StripDashesAppend(a[1..], b);
    } else {
      assert a + b == b;
    }
  }

  /** An id without dashes passes through unchanged. */
  lemma {:induction false} StripDashesNoDash(s: string)
    requires forall i :: 0 <= i < |s| ==> s[i] != '-'
    ensures StripDashes(s) == s
    decreases |s|
  {
    if s != [] {
      StripDashesNoDash(s[1..]);
    }
  }

  /** The characters kept are exactly the non-dash characters, each as often as in `s`. */
  lemma {:induction false} StripDashesKeepsOthers(s: string, c: char)
    requires c != '-'
    ensures multiset(StripDashes(s))[c] == multiset(s)[c]
    ensures multiset(StripDashes(s))['-'] == 0
    decreases |s|
  {
    if s != [] {
      StripDashesKeepsOthers(s[1..], c);
      assert s == [s[0]] + s[1..];
    }
  }

  /** `makeNotionUrl(id)`: empty for an absent or empty id, otherwise the prefix
      followed by the id with every dash removed. */
  function MakeNotionUrl(id: Option<string>): (url: string)
    ensures url == "" <==> !Truthy(id)
    ensures Truthy(id) ==> url == Prefix + StripDashes(id.value)
    ensures url != "" ==> |url| >= |Prefix| && url[..|Prefix|] == Prefix
    ensures url != "" ==> forall i :: |Prefix| <= i < |url| ==> url[i] != '-'
  {
    if Truthy(id) then Prefix + StripDashes(id.value) else ""
  }

  /** The source's own sample page id. */
  lemma NotionUrlExample()
    ensures MakeNotionUrl(Some("test-page-id")) == "https://www.notion.so/testpageid"
  {
    var a, b, c := "test", "page", "id";
    NotionUrlThreeWords(a, b, c);
    assert a + "-" + b + "-" + c == "test-page-id";
    assert Prefix + a + b + c == "https://www.notion.so/testpageid";
  }

  /** An id made of three dash-free words joined by dashes links to the words run together. */
  lemma NotionUrlThreeWords(a: string, b: string, c: string)
    requires a != ""
    requires forall i :: 0 <= i < |a| ==> a[i] != '-'
    requires forall i :: 0 <= i < |b| ==> b[i] != '-'
    requires forall i :: 0 <= i < |c| ==> c[i] != '-'
    ensures MakeNotionUrl(Some(a + "-" + b + "-" + c)) == Prefix + a + b + c
  {
    var db, dc := "-" + b, "-" + c;
    var id := a + (db + dc);
    assert a + "-" + b + "-" + c == id;
    StripDashesAppend(db, dc);
    DashThenWord(b);
    DashThenWord(c);
    assert StripDashes(db + dc) == b + c;
    StripDashesAppend(a, db + dc);
    StripDashesNoDash(a);
    assert StripDashes(id) == a + (b + c);
    assert MakeNotionUrl(Some(id)) == Prefix + StripDashes(id);
  }

  lemma DashThenWord(w: string)
    requires forall i :: 0 <= i < |w| ==> w[i] != '-'
    ensures StripDashes("-" + w) == w
  {
    assert ("-" + w)[1..] == w;
    StripDashesNoDash(w);
  }

  /** A dash-free id is appended verbatim. */
  lemma NotionUrlDashFree(id: string)
    requires id != ""
    requires forall i :: 0 <= i < |id| ==> id[i] != '-'
    ensures MakeNotionUrl(Some(id)) == Prefix + id
  {
    StripDashesNoDash(id);
  }
}

=== FILE: users.dfy ===
/** `resolveUser`: the display name written in column 3 of an Events row. */
module Users {
  import opened Inbound
  import opened Caching

  const Unknown := "(unknown)"

  /** What the users endpoint gives back: a transport failure, or a status code and a body
      that either does not parse (`None`) or parses to a user object. */
  datatype Fetch = Failed | Responded(code: int, body: Option<Actor>)

  /** The key the cache is read under. */
  function UserKey(id: string): (key: string)
    ensures |key| == 5 + |id| && key[..5] == "USER_" && key[5..] == id
  {
    "USER_" + id
  }

  /** A display name and the cache after resolving it. */
  datatype Resolved = Resolved(name: string, cache: map<string, CacheEntry>)

  /** The name a successful lookup yields: `j.name || j.person?.email || id`; `None` for a
      non-200 status, a failed request or an unparseable body (all caught and logged). */
  function LookupName(res: Fetch, id: string): (r: Option<string>)
    requires id != ""
    ensures r.Some? <==> res.Responded? && res.code == 200 && res.body.Some?
    ensures r.Some? ==> r.value != ""
    ensures r.Some? && Truthy(res.body.value.name) ==> r.value == res.body.value.name.value
    ensures r.Some? && !Truthy(res.body.value.name) && Truthy(EmailOf(res.body)) ==> r.value == EmailOf(res.body).value
    ensures r.Some? && !Truthy(res.body.value.name) && !Truthy(EmailOf(res.body)) ==> r.value == id
  {
    if res.Responded? && res.code == 200 && res.body.Some? then
      var j := Some(res.body.value);
      Some(if Truthy(NameOf(j)) then NameOf(j).value
           else if Truthy(EmailOf(j)) then EmailOf(j).value
           else id)
    else None
  }

  /** A cache read that counts as a hit: non-empty text under `key`. */
  predicate CacheHit(cache: map<string, CacheEntry>, key: string) {
    key in cache && cache[key].Text? && cache[key].s != ""
  }

  /** `resolveUser(ev)` as a function of the cache before the call. The name is never empty,
      and the only write is the looked-up name under the bare author id. */
  function Resolve(cache: map<string, CacheEntry>, ev: Event, lookup: string -> Fetch): (r: Resolved)
    ensures r.name != ""
    ensures r.cache == cache || (
      && Truthy(FirstAuthorId(ev))
      && !CacheHit(cache, UserKey(FirstAuthorId(ev).value))
      && LookupName(lookup(FirstAuthorId(ev).value), FirstAuthorId(ev).value) == Some(r.name)
      && r.cache == cache[FirstAuthorId(ev).value := Text(r.name)])
    ensures !Truthy(NameOf(ev.actor)) && !Truthy(EmailOf(ev.actor)) && Truthy(FirstAuthorId(ev)) ==>
      var id := FirstAuthorId(ev).value;
      && (CacheHit(cache, UserKey(id)) ==> r == Resolved(cache[UserKey(id)].s, cache))
      && (!CacheHit(cache, UserKey(id)) && LookupName(lookup(id), id).Some? ==>
            r == Resolved(LookupName(lookup(id), id).value, cache[id := Text(LookupName(lookup(id), id).value)]))
  {
    if Truthy(NameOf(ev.actor)) then Resolved(NameOf(ev.actor).value, cache)
    else if Truthy(EmailOf(ev.actor)) then Resolved(EmailOf(ev.actor).value, cache)
    else if !Truthy(FirstAuthorId(ev)) then Resolved(Unknown, cache)
    else
      var id := FirstAuthorId(ev).value;
      if CacheHit(cache, UserKey(id)) then Resolved(cache[UserKey(id)].s, cache)
      else match LookupName(lookup(id), id)
        case None => Resolved(Unknown, cache)
        case Some(name) => Resolved(name, cache[id := Text(name)])
  }

  /** The priority chain: actor name, then actor email, whatever the cache holds and whatever
      the users endpoint would answer; with neither and no author id, the sentinel. */
  lemma ResolvePriority(cache: map<string, CacheEntry>, ev: Event, lookup: string -> Fetch)
    ensures Truthy(NameOf(ev.actor)) ==> Resolve(cache, ev, lookup) == Resolved(NameOf(ev.actor).value, cache)
    ensures !Truthy(NameOf(ev.actor)) && Truthy(EmailOf(ev.actor)) ==>
      Resolve(cache, ev, lookup) == Resolved(EmailOf(ev.actor).value, cache)
    ensures !Truthy(NameOf(ev.actor)) && !Truthy(EmailOf(ev.actor)) && !Truthy(FirstAuthorId(ev)) ==>
      Resolve(cache, ev, lookup) == Resolved(Unknown, cache)
  {
  }

  /** An author lookup that fails in any way yields the sentinel and leaves the cache alone,
      so the next event by that author tries again. */
  lemma ResolveFailureIsUnknown(cache: map<string, CacheEntry>, ev: Event, lookup: string -> Fetch)
    requires !Truthy(NameOf(ev.actor)) && !Truthy(EmailOf(ev.actor)) && Truthy(FirstAuthorId(ev))
    requires !CacheHit(cache, UserKey(FirstAuthorId(ev).value))
    requires LookupName(lookup(FirstAuthorId(ev).value), FirstAuthorId(ev).value).None?
    ensures Resolve(cache, ev, lookup) == Resolved(Unknown, cache)
  {
  }

  /** The cache is read under `'USER_' + id` but written under `id`, so a successful lookup is
      never itself a later hit: resolving the same event again behaves exactly as it did on the
      cache before the first call, asking the endpoint afresh. */
  lemma ResolveWriteNeverHits(cache: map<string, CacheEntry>, ev: Event, lookup: string -> Fetch, lookup2: string -> Fetch)
    requires Resolve(cache, ev, lookup).cache != cache
    ensures Resolve(Resolve(cache, ev, lookup).cache, ev, lookup2).name == Resolve(cache, ev, lookup2).name
  {
    var id := FirstAuthorId(ev).value;
    assert |UserKey(id)| > |id|;
    var c1 := Resolve(cache, ev, lookup).cache;
    assert c1 == cache[id := c1[id]];
    assert CacheHit(c1, UserKey(id)) == CacheHit(cache, UserKey(id));
  }

  /** `resolveUser(ev)` on the script cache. */
  method ResolveUser(c: ScriptCache, ev: Event, lookup: string -> Fetch) returns (name: string)
    modifies c
    ensures Resolved(name, c.entries) == Resolve(old(c.entries), ev, lookup)
  {
    var actorName := NameOf(ev.actor);
    if Truthy(actorName) {
      return actorName.value;
    }
    var email := EmailOf(ev.actor);
    if Truthy(email) {
      return email.value;
    }
    var id := FirstAuthorId(ev);
    if !Truthy(id) {
      return Unknown;
    }
    var key := UserKey(id.value);
    if key in c.entries && c.entries[key].Text? && c.entries[key].s != "" {
      return c.entries[key].s;
    }
    var found := LookupName(lookup(id.value), id.value);
    if found.None? {
      return Unknown;
    }
    c.entries := c.entries[id.value := Text(found.value)];
    name := found.value;
  }
}
